=== FILE: README.md ===
# ember-cli-cordova-shims: notifications and network activity, modelled in Dafny

This project models the two pieces of the Cordova shims add-on that have
behaviour worth stating precisely.

* **The notification service** (`addon/services/notifications.js`).
  * Two native callback channels, `onNotificationGCM` and `onNotificationAPNS`, are
    normalised onto one closed event vocabulary: `_registration`, `sound`, `alert` and `badge`.
  * The service's own `badge` listener sets the icon badge through the native plugin.
  * `register()` is a settle-once handshake with the GCM or APNS plugin. Both paths
    resolve through a one-shot `_registration` listener: the GCM channel and the APNS
    ack each trigger that event for every subscriber.
  * `unregister()` wraps the native `unregister` call in a promise.
* **The network-activity adapter mixin** (`addon/mixins/network-activity-adapter.js`).
  * `ajax()` counts requests around the wrapped adapter's `ajax`. A request is counted
    from the call until its `finally` handler runs, which is after the handlers attached
    to the returned promise.
  * An observer of the counter starts the native activity indicator while the counter is
    positive and stops it at zero.

Everything is pure. Native payloads are immutable datatypes and optional fields are
`Option`s. JavaScript truthiness is explicit: a string is truthy when non-empty, a number
when non-zero, a flag when `true`. Native callbacks, triggered events and the expiry of the
GCM timer are inputs to transition functions. Time is the abstract input `TimeoutFired`.

Modules, one per concept:

| file | module | models |
|---|---|---|
| wrappers.dfy | `Wrappers` | `Option`, for `undefined`/`null` fields |
| js_values.dfy | `JsValues` | truthiness, the `or` operator, `toLowerCase` |
| notification_events.dfy | `NotificationEvents` | the event vocabulary and the emission orders |
| push_channels.dfy | `PushChannels` | `onNotificationGCM` and `onNotificationAPNS` |
| badge_reaction.dfy | `BadgeReaction` | the `badge` listener `_setBadgeCount` |
| promises.dfy | `Promises` | settle-once promises around callback-style calls |
| push_registration.dfy | `PushRegistration` | `register()` and `unregister()` |
| network_activity.dfy | `NetworkActivity` | `ajax()` and `_toggleNetworkActivity` |

Behaviour of the code worth noting, which the model keeps:

* A missing `regid` on a GCM `registered` event throws a `TypeError`, because the code reads
  `e.regid.length` without a guard. A foreground `message` without `payload` also throws, on
  `payload.sound` or on `payload.message`. Any `sound` event triggered before the throw has
  already reached its listeners.
* The sender-id check is `Em.assert` on the value's truthiness. An empty-string sender id
  rejects too, not only a missing one.
* The `_registration` listener is armed before the platform switch. So a `_registration`
  event resolves a pending `register()` even before the native ack, on both paths.
* The native error callback rejects the promise whenever it is still pending. That includes
  after the GCM ack, while the timer runs.
* The emission orders are fixed. GCM foreground messages emit sound, alert, badge. APNS
  notifications emit alert, sound, badge.
* A missing `window.plugins` or device platform makes `register()` reject with the
  resulting `TypeError` before any native call. A missing `pushNotification` object does
  the same only when a native call is due; otherwise `register()` rejects with "Invalid
  platform" or the sender-id assertion as usual. `unregister()` never reads the platform:
  only a missing `window.plugins.pushNotification` makes it reject with a `TypeError`.
* A failed badge update logs `e.message` of whatever the rejection carries. A value with
  no `message` (a bare string, say) logs "Failed to set badge. undefined". A rejection with
  no value at all logs nothing, because reading its `message` throws inside the `catch`
  handler. A missing plugin makes no native call and logs the `TypeError`'s message.

## Model

| member | source | states |
|---|---|---|
| JsValues.Or | addon/services/notifications.js:32 | `soundname` or-else `payload.sound`: the left operand when it is truthy, otherwise the right one; the result is truthy iff either operand is |
| JsValues.ToLowerMatchesLiteral | addon/services/notifications.js:97 | comparing `platform.toLowerCase()` with a lower-case literal is the same as comparing without regard to letter case, in both directions |
| NotificationEvents.OrderedEmissionIsUnique | addon/services/notifications.js:29-70 | two emissions with the same events that both follow one kind order are equal, so the channel contracts below determine each channel's output exactly |
| PushChannels.GcmSoundFile | addon/services/notifications.js:30-32 | the sound file is `soundname` when that is truthy; otherwise, with a payload, it is `payload.sound` whatever its value; reading it faults exactly when `soundname` is falsy and there is no payload |
| PushChannels.GcmForeground | addon/services/notifications.js:29-43 | events come in the order sound, alert, badge, at most one of each, never a `_registration`; a sound event carries `/android_asset/www/` plus a truthy `soundname`, or plus `payload.sound` when `soundname` is falsy; alert and badge appear iff `payload.message` and `payload.msgcnt` are truthy; a missing payload faults |
| PushChannels.OnGcm | addon/services/notifications.js:15-56 | `registered` with a non-empty regid emits exactly one `_registration {gcm, regid}`; an empty or missing one emits nothing; a missing one faults; `_registration` comes from nothing else; a `message` without `foreground` (cold start or background) emits nothing; every other event kind emits nothing |
| PushChannels.OnApns | addon/services/notifications.js:58-70 | events come in the order alert, sound, badge; each appears iff its field is truthy and carries the field's value verbatim, with no path prefix on the sound |
| BadgeReaction.Deliver | addon/services/notifications.js:73-80 | every event reaches subscribers whatever the native calls do; the native badge calls are the counts of the badge events that met the plugin, in order, and exactly the badge counts when the plugin is always there; the log is, in order, one line per failed badge update whose rejection value can be read, and every logged line is the line of one such failure |
| BadgeReaction.FailedBadgeIsLogged | addon/services/notifications.js:74-79 | a failed badge update is logged with the rejection's `message`, with `undefined` when the rejection value has no `message`, and with the `TypeError`'s message when the plugin is missing |
| BadgeReaction.NoValueIsNotLogged | addon/services/notifications.js:78 | rejections that carry no value log nothing, since reading their `message` throws inside the `catch` handler |
| BadgeReaction.NativeCallsMatchReachedBadges | addon/services/notifications.js:74-76 | a count reaches `setApplicationIconBadgeNumber` iff a badge event with that count was triggered while the plugin was there |
| BadgeReaction.BadgeCountsAppend | addon/services/notifications.js:10 | the badge calls of two runs of events, one after the other, are those of the first run followed by those of the second |
| BadgeReaction.BadgeCallsMatchBadgeEvents | addon/services/notifications.js:10 | the listener receives count c iff a `badge` event with c was triggered; when the plugin is always there, these are exactly the counts passed to `setApplicationIconBadgeNumber` |
| Promises.SettleAll | addon/services/notifications.js:139-141 | a promise around a callback-style call is pending until the first callback; after that it holds that callback's value or reason, and later callbacks change nothing |
| PushRegistration.ClassifyPlatform | addon/services/notifications.js:97-133 | the platform is Android, Amazon FireOS or iOS iff the platform string equals `android`, `amazon-fireos` or `ios` ignoring case |
| PushRegistration.Register | addon/services/notifications.js:91-136 | Android and Amazon FireOS without a truthy sender id reject with the assertion message and make no native call; with one, they call `register` with `{senderId, ecb: "onNotificationGCM"}` and wait; iOS calls `register` with badge, sound and alert true and `ecb: "onNotificationAPNS"`; any other platform rejects with "Invalid platform"; no native call is made iff the promise is already settled |
| PushRegistration.Step | addon/services/notifications.js:96-133 | a settled registration ignores every input; a `_registration` event resolves a pending one with its data; a native error rejects with the native value verbatim; the GCM ack only arms the timer; the APNS ack resolves a pending registration with `{apns, token}`; only an armed timer times out |
| PushRegistration.StepOn | addon/services/notifications.js:119-124 | the APNS ack triggers `_registration` with `{apns, token}` for every subscriber in every state, a settled one included; the GCM ack and every other input trigger nothing; on the APNS path the ack's effect on the registration is exactly that of the event it triggers, through the listener |
| PushRegistration.RunOn | addon/services/notifications.js:96-133 | a series of inputs on a given path leaves the registration as `Run` does; on the GCM path the service triggers no event |
| PushRegistration.ApnsAcksReachSubscribers | addon/services/notifications.js:119-124 | on the APNS path an event is triggered iff it is `_registration` with `{apns, token}` for a native ack with that token, whatever the registration's state; on the GCM path none is |
| PushRegistration.SettledIsFinal | addon/services/notifications.js:92-135 | once the promise is settled, no series of later inputs changes it |
| PushRegistration.FirstSettlementWins | addon/services/notifications.js:96-111 | whichever input settles the registration first decides the outcome; nothing after it has an effect, so it never both resolves and rejects |
| PushRegistration.GcmRegisteredResolves | addon/services/notifications.js:17-25 | feeding the events of a GCM `registered` notification with a non-empty regid to a pending registration resolves it with `{gcm, regid}`, and no later input, a second token included, changes that |
| PushRegistration.ApnsNeverTimesOut | addon/services/notifications.js:117-131 | no series of inputs makes an iOS registration reject with the GCM timeout |
| PushRegistration.NoLateSenderIdFailure | addon/services/notifications.js:103 | after `register()` has started, no input produces the sender-id assertion failure |
| PushRegistration.SenderIdRequired | addon/services/notifications.js:98-103 | on Android and Amazon FireOS the outcome is the sender-id assertion failure iff no truthy sender id is configured, whatever the plugin does later |
| PushRegistration.GcmHandshake | addon/services/notifications.js:106-115 | after the GCM ack, a `_registration` event resolves and the timer rejects with "Timed out while registering for GCM", whichever comes first, and later inputs change nothing |
| PushRegistration.ApnsHandshake | addon/services/notifications.js:117-131 | on iOS the native ack triggers `_registration` with `{apns, token}`, which resolves `register()` at once; no later input changes that, and later acks still trigger their events |
| PushRegistration.RegisterOnBridge | addon/services/notifications.js:92-133 | a missing `window.plugins` or device platform rejects `register()` with a `TypeError` and no native call; a missing `pushNotification` object does the same once a native call is due, and otherwise changes nothing; with every object present the outcome is that of `Register` |
| PushRegistration.Unregister | addon/services/notifications.js:138-143 | `unregister()` resolves iff the native success callback comes first, with the value that callback passes; it rejects iff the error callback comes first, with the native reason verbatim; it stays pending until a callback comes |
| PushRegistration.UnregisterOnBridge | addon/services/notifications.js:138-143 | without `window.plugins.pushNotification`, `unregister()` rejects with the `TypeError` and no native call is made; otherwise it behaves as `Unregister` |
| NetworkActivity.ToggleNetworkActivity | addon/mixins/network-activity-adapter.js:46-57 | without the plugin, only the missing-plugin hook is scheduled; with it, the observer starts the indicator iff the counter is positive and stops it otherwise |
| NetworkActivity.Init | addon/mixins/network-activity-adapter.js:27 | a fresh adapter has counter 0, nothing in flight and the indicator off, and satisfies the invariant |
| NetworkActivity.Ajax | addon/mixins/network-activity-adapter.js:29-40 | the counter rises by exactly one; the request is in flight with a pending promise; the observer runs before the wrapped `ajax` is called, so with the plugin the indicator is on at delegation; the indicator follows the recorded observer action; plugin presence is unchanged; the invariant is kept |
| NetworkActivity.Complete | addon/mixins/network-activity-adapter.js:33-35 | when the wrapped call settles, the returned promise settles with the same value or reason; the counter and the indicator do not change yet, and the request now waits for its `finally` handler; plugin presence is unchanged; a request that is not in flight changes nothing; the invariant is kept |
| NetworkActivity.Finally | addon/mixins/network-activity-adapter.js:36-38 | the `finally` handler of a settled request decrements the counter by exactly one and the observer runs, the indicator following the action it records; it runs at most once per request; the promises are unchanged; the invariant is kept |
| NetworkActivity.ChainedRequestKeepsIndicatorOn | addon/mixins/network-activity-adapter.js:29-38 | a handler of the returned promise that calls `ajax()` again runs before the first request's decrement, so with the plugin the indicator is started again and never stopped in between, and stays on |
| NetworkActivity.RunKeepsValid | addon/mixins/network-activity-adapter.js:27-57 | after any series of calls, settlements and `finally` handlers, the counter equals the requests not yet decremented plus the calls whose wrapped `ajax` threw, so it is never negative; the indicator is on iff the counter is positive; a series without throwing calls keeps the invariant |
| NetworkActivity.AllSettledIsIdle | addon/mixins/network-activity-adapter.js:36-56 | from a fresh adapter, once no request is in flight the counter equals the requests still waiting for their `finally` handler plus the throwing calls; with the plugin, the indicator is on iff that sum is positive; without it, the indicator is never on |
| NetworkActivity.NoPluginNoIndicatorCalls | addon/mixins/network-activity-adapter.js:47-50 | without the `NetworkActivity` plugin, the indicator is never started or stopped; the observer only schedules the missing-plugin hook |
| NetworkActivity.SettledRequestIsFinal | addon/mixins/network-activity-adapter.js:33-38 | a settled request's promise keeps its value or reason whatever follows |
| NetworkActivity.AjaxThrowingAsWritten | addon/mixins/network-activity-adapter.js:32-38 | a wrapped `ajax` that throws rejects the returned promise but leaves the counter one higher, with nothing more in flight |
| NetworkActivity.IndicatorStuckAfterThrow | addon/mixins/network-activity-adapter.js:32-38 | after one throwing wrapped `ajax`, whatever requests follow, the counter exceeds the requests not yet decremented by one plus the later throwing calls, and the indicator stays on |
| NetworkActivity.LeakGrowsWithThrows | addon/mixins/network-activity-adapter.js:29-57 | over any series of requests, calls, settlements and `finally` handlers keep the excess of the counter over the requests not yet decremented, and each throwing call adds one to it |
| NetworkActivity.AjaxThrowing | addon/mixins/network-activity-adapter.js:29-40 | corrected: a wrapped `ajax` that throws rejects the returned promise with the thrown reason; the counter is back to its previous value and the invariant is kept |
| NetworkActivity.RunCorrectedKeepsValid | addon/mixins/network-activity-adapter.js:29-57 | corrected: with the decrement also on the throwing path, every series of requests keeps the counter equal to the requests not yet decremented, with the indicator on iff it is positive |
| NetworkActivity.CorrectedAllSettledIsIdle | addon/mixins/network-activity-adapter.js:36-56 | corrected: from a fresh adapter, once no request is in flight the counter equals the requests waiting for their `finally` handler, and once those have run it is 0 with the indicator off, throwing calls included |

## Left out

- `_playSound` and `window.Media`, the service's reaction to `sound` events: a foreign audio API. `sound` events are modelled up to their delivery.
- Logging (`Em.Logger`): every logged line is left out except the failed-badge line. That line is how `_setBadgeCount` swallows a failure.
- Installing `window.onNotificationGCM` and `window.onNotificationAPNS`, and `init`'s subscriptions: process-wide globals and Ember's `Evented` machinery. The channels are plain functions, and `Deliver` stands for the `badge` subscription.
- Ember observers, `run.scheduleOnce` and RSVP's queue. Observers run synchronously after each counter change. A request's settlement and its `finally` handler are two requests to the adapter, and any series of requests is allowed between them, a superset of the orders RSVP produces. The missing-plugin hook is recorded as a scheduled action, without `scheduleOnce`'s de-duplication within a run loop.
- The `missing-plugin` utility it schedules is not part of this model.
- `gcmTimeout` (15000 ms) and real timers: the timer's expiry is the input `TimeoutFired`. Several armed timers are one, since any of them rejects the same way.
- `Em.assert` being stripped in production builds: the model keeps the behaviour where the assertion rejects.
- Concurrent `register()` calls, and `_registration` listeners left armed by earlier calls: one invocation is modelled.
- The exact text of a `TypeError` from a missing native object: in `register()` and `unregister()` all of them are one `TypeError` failure. For a badge update the text is a parameter of the `PluginMissing` result.
- NetworkActivity.Adapter: whether `window.NetworkActivity` is installed is fixed for the adapter's lifetime, while the observer re-reads it on every run (network-activity-adapter.js:47). A plugin that appears while requests are in flight leaves the indicator off until the next counter change, which the invariant does not cover.
- NetworkActivity.Adapter: the indicator's state belongs to one adapter. The native indicator is process-wide, so two adapters using the mixin, each with its own `_pendingAjaxCalls`, switch the same indicator; the invariant holds per adapter only.
- BadgeReaction.Deliver: the `TypeError` thrown inside the `catch` handler for a rejection with no value is not followed further; RSVP reports it as an unhandled rejection, which is left out with the rest of RSVP's error reporting.
- BadgeReaction.Deliver: each badge update is taken to finish, and its line to be logged, before the next badge event is handled, so the log follows the order of the events. In the code each line is logged when that update's rejection is handled: after Cordova's asynchronous error callback for a native failure, at the next RSVP flush for a missing plugin. Lines of overlapping updates can therefore come out in another order.
- `unregister()`'s empty options object, and the arguments `ajax()` forwards to the wrapped implementation: passed through and never inspected.
- `addon/services/dialogs.js`: UI wrappers around native and browser dialogs.
- Field types other than the ones the code expects, for example a `msgcnt` sent as the string "5", a non-string `regid`, or an APNS callback called with no object. Strings and integers only.
- PushRegistration.ClassifyPlatform: case is folded for ASCII letters only, while `toLowerCase` folds all of Unicode. No platform string the plugin reports has letters outside ASCII.
- PushRegistration.Step: the data of a `_registration` event is modelled as `{network, token}`. Any other object a caller triggers the event with is not modelled.

## Findings

| source | as written | input that shows it | evidently intended | confidence | as-written member | corrected member |
|---|---|---|---|---|---|---|
| addon/mixins/network-activity-adapter.js:32-38 | the decrement hangs off the promise the wrapped `ajax` returns, inside the executor of the returned promise. If the wrapped `ajax` throws, the executor throws: the returned promise rejects, but `_pendingAjaxCalls` is never decremented | `NetworkActivity` installed, and a wrapped `ajax` that throws `new Error("x")`. The counter stays at 1 and the indicator stays on for good (`NetworkActivity.ThrowingDelegateLeavesIndicatorOn` states this input) | every `ajax()` call decrements the counter exactly once when it settles, so the indicator stops once nothing is in flight | low, not executed: Ember Data's own `ajax` returns a promise rather than throwing | NetworkActivity.AjaxThrowingAsWritten, NetworkActivity.IndicatorStuckAfterThrow | NetworkActivity.AjaxThrowing, NetworkActivity.RunCorrectedKeepsValid |

`NetworkActivity.RunAdapter` runs requests as the mixin is written, throwing calls
included. `NetworkActivity.RunCorrected` runs the same requests with the decrement also
on the throwing path.

=== FILE: badge_reaction.dfy ===
/** The service's own listener on `badge`: each badge event asks the native
    plugin to set the application icon badge; a failure is caught and logged
    and never reaches the code that triggered the event. */
module BadgeReaction {
  import opened Wrappers
  import opened NotificationEvents

  /** The value a failed badge update hands to the `catch` handler, as far as
      the handler's `e.message` tells values apart. */
  datatype Rejection =
    | ErrorLike(message: string)   // an object whose `message` formats as `message`
    | NonError                     // a bare string, a number, an object without `message`
    | NoValue                      // `undefined` or `null`: reading `e.message` throws

  /** How the badge update for one event ends. */
  datatype NativeResult =
    | NativeOk
    | NativeFailed(reason: Rejection)   // the native error callback was called with `reason`
    | PluginMissing(typeError: string)  // `window.plugins` or its `pushNotification` is missing

  /** Prefix of the line logged for a failed badge update. */
  const BadgeFailurePrefix: string := "Failed to set badge. "

  /** What delivering a run of events amounts to: the events every subscriber
      received, the native badge calls made (their counts, in order) and the
      error lines logged. */
  datatype Delivery = Delivery(delivered: seq<Event>, badgeCalls: seq<int>, logged: seq<string>)

  /** The value that reaches the `catch` handler: a missing plugin makes the
      promise executor throw a `TypeError` before any native call. */
  function Caught(res: NativeResult): Option<Rejection> {
    match res
    case NativeOk => None
    case NativeFailed(reason) => Some(reason)
    case PluginMissing(message) => Some(ErrorLike(message))
  }

  /** The line the `catch` handler logs for a rejection value: `e.message`
      formatted with `%s` (`undefined` when there is none), or nothing when
      reading `e.message` itself throws. */
  function CatchLine(reason: Rejection): Option<string> {
    match reason
    case ErrorLike(message) => Some(BadgeFailurePrefix + message)
    case NonError => Some(BadgeFailurePrefix + "undefined")
    case NoValue => None
  }

  /** The line logged while delivering one event, if any. */
  function LineFor(e: Event, res: NativeResult): Option<string> {
    if !e.Badge? then None
    else match Caught(res)
      case None => None
      case Some(reason) => CatchLine(reason)
  }

  /** The badge counts of a run of events, in order. */
  function BadgeCounts(events: seq<Event>): seq<int> {
    if |events| == 0 then []
    else (if events[0].Badge? then [events[0].count] else []) + BadgeCounts(events[1..])
  }

  /** The counts actually passed to `setApplicationIconBadgeNumber`: those of
      the badge events for which the plugin was there. */
  function NativeCalls(events: seq<Event>, results: seq<NativeResult>): seq<int>
    requires |results| == |events|
  {
    if |events| == 0 then []
    else
      var here := if events[0].Badge? && !results[0].PluginMissing? then [events[0].count] else [];
      here + NativeCalls(events[1..], results[1..])
  }

  /** The error lines of a run of events, in order. */
  function FailureLines(events: seq<Event>, results: seq<NativeResult>): seq<string>
    requires |results| == |events|
  {
    if |events| == 0 then []
    else
      var line := LineFor(events[0], results[0]);
      (if line.Some? then [line.value] else []) + FailureLines(events[1..], results[1..])
  }

  /** Triggers `events` in order; `results[i]` is how the badge update for
      `events[i]` ends, and is ignored for events that are not badges. */
  function Deliver(events: seq<Event>, results: seq<NativeResult>): (d: Delivery)
    requires |results| == |events|
    ensures d.delivered == events
    ensures d.badgeCalls == NativeCalls(events, results)
    ensures (forall i :: 0 <= i < |results| ==> !results[i].PluginMissing?) ==>
      d.badgeCalls == BadgeCounts(events)
    ensures d.logged == FailureLines(events, results)
    ensures forall line :: line in d.logged ==>
      exists i :: 0 <= i < |events| && events[i].Badge? && Caught(results[i]).Some? &&
        LineFor(events[i], results[i]) == Some(line)
  {
    if |events| == 0 then Delivery([], [], [])
    else
      var rest := Deliver(events[1..], results[1..]);
      var e := events[0];
      var calls := if e.Badge? && !results[0].PluginMissing? then [e.count] else [];
      var line := LineFor(e, results[0]);
      var logged := if line.Some? then [line.value] else [];
      assert (forall i :: 0 <= i < |results| ==> !results[i].PluginMissing?) ==>
        forall i :: 0 <= i < |results[1..]| ==> !results[1..][i].PluginMissing?
      by {
        if forall i :: 0 <= i < |results| ==> !results[i].PluginMissing? {
          forall i | 0 <= i < |results[1..]| ensures !results[1..][i].PluginMissing? {
            assert results[1..][i] == results[i + 1];
          }
        }
      }
      assert forall line :: line in rest.logged ==>
        exists i :: 1 <= i < |events| && events[i].Badge? && Caught(results[i]).Some? &&
          LineFor(events[i], results[i]) == Some(line)
      by {
        forall line | line in rest.logged
          ensures exists i :: (1 <= i < |events| && events[i].Badge? && Caught(results[i]).Some? &&
                                LineFor(events[i], results[i]) == Some(line))
        {
          var j :| 0 <= j < |events[1..]| && events[1..][j].Badge? && Caught(results[1..][j]).Some? &&
            LineFor(events[1..][j], results[1..][j]) == Some(line);
          assert events[j + 1] == events[1..][j] && results[j + 1] == results[1..][j];
        }
      }
      Delivery([e] + rest.delivered, calls + rest.badgeCalls, logged + rest.logged)
  }

  /** Every failed badge update whose rejection value can be read is logged:
      with its message, with `undefined` when the value has none, and with
      the `TypeError`'s message when the plugin is missing. */
  lemma {:induction false} FailedBadgeIsLogged(events: seq<Event>, results: seq<NativeResult>, i: nat)
    requires |results| == |events| && i < |events| && events[i].Badge?
    ensures results[i].NativeFailed? && results[i].reason.ErrorLike? ==>
      BadgeFailurePrefix + results[i].reason.message in Deliver(events, results).logged
    ensures results[i] == NativeFailed(NonError) ==>
      BadgeFailurePrefix + "undefined" in Deliver(events, results).logged
    ensures results[i].PluginMissing? ==>
      BadgeFailurePrefix + results[i].typeError in Deliver(events, results).logged
  {
    if i > 0 {
      FailedBadgeIsLogged(events[1..], results[1..], i - 1);
      assert events[1..][i - 1] == events[i] && results[1..][i - 1] == results[i];
    }
  }

  /** A rejection without a value logs nothing: reading its `message` throws
      inside the `catch` handler. */
  lemma {:induction false} NoValueIsNotLogged(events: seq<Event>, results: seq<NativeResult>)
    requires |results| == |events|
    requires forall i :: 0 <= i < |results| ==> results[i] == NativeOk || results[i] == NativeFailed(NoValue)
    ensures Deliver(events, results).logged == []
  {
    if |events| > 0 {
      assert forall i :: 0 <= i < |results[1..]| ==> results[1..][i] == results[i + 1];
      NoValueIsNotLogged(events[1..], results[1..]);
    }
  }

  /** Delivery splits over concatenation: triggering `a` then `b` makes the
      badge calls of `a` followed by those of `b`. */
  lemma {:induction false} BadgeCountsAppend(a: seq<Event>, b: seq<Event>)
    ensures BadgeCounts(a + b) == BadgeCounts(a) + BadgeCounts(b)
  {
    if |a| == 0 {
      assert a + b == b;
    } else {
      var head := if a[0].Badge? then [a[0].count] else [];
      assert (a + b)[0] == a[0];
      assert (a + b)[1..] == a[1..] + b;
      assert BadgeCounts(a + b) == head + BadgeCounts(a[1..] + b);
      BadgeCountsAppend(a[1..], b);
      assert BadgeCounts(a) == head + BadgeCounts(a[1..]);
    }
  }

  /** A count is passed to the native plugin exactly when a badge event with
      that count was triggered. */
  lemma {:induction false} BadgeCallsMatchBadgeEvents(events: seq<Event>)
    ensures forall c :: c in BadgeCounts(events) <==> Badge(c) in events
  {
    if |events| > 0 {
      BadgeCallsMatchBadgeEvents(events[1..]);
      assert events == [events[0]] + events[1..];
    }
  }

  /** With the plugin missing for some events, a count reaches the native
      plugin exactly when a badge event with that count met the plugin. */
  lemma {:induction false} NativeCallsMatchReachedBadges(events: seq<Event>, results: seq<NativeResult>)
    requires |results| == |events|
    ensures forall c :: c in NativeCalls(events, results) <==>
      exists i :: 0 <= i < |events| && events[i] == Badge(c) && !results[i].PluginMissing?
  {
    if |events| > 0 {
      NativeCallsMatchReachedBadges(events[1..], results[1..]);
      forall c
        ensures (exists i :: 0 <= i < |events| && events[i] == Badge(c) && !results[i].PluginMissing?) <==>
          (events[0] == Badge(c) && !results[0].PluginMissing?) ||
          (exists j :: 0 <= j < |events[1..]| && events[1..][j] == Badge(c) && !results[1..][j].PluginMissing?)
      {
        if i :| 0 <= i < |events| && events[i] == Badge(c) && !results[i].PluginMissing? {
          if i > 0 {
            assert events[1..][i - 1] == events[i] && results[1..][i - 1] == results[i];
          }
        }
        if j :| 0 <= j < |events[1..]| && events[1..][j] == Badge(c) && !results[1..][j].PluginMissing? {
          assert events[j + 1] == events[1..][j] && results[j + 1] == results[1..][j];
        }
      }
    }
  }
}

=== FILE: js_values.dfy ===
/** The few JavaScript value semantics the notification service and the
    adapter mixin rely on: truthiness of optional fields, the `||` operator
    and `String.prototype.toLowerCase`. */
module JsValues {
  import opened Wrappers

  /** A string field is truthy when it is present and non-empty. */
  predicate TruthyStr(o: Option<string>) {
    o.Some? && o.value != ""
  }

  /** A numeric field is truthy when it is present and non-zero
      (NaN is not representable here). */
  predicate TruthyNum(o: Option<int>) {
    o.Some? && o.value != 0
  }

  /** A boolean flag is truthy when it is present and `true`. */
  predicate TruthyBool(o: Option<bool>) {
    o == Some(true)
  }

  /** JavaScript `a || b` on two string-valued fields: the left operand when
      it is truthy, otherwise the right operand, whatever it is. */
  function Or(a: Option<string>, b: Option<string>): (r: Option<string>)
    ensures TruthyStr(r) <==> TruthyStr(a) || TruthyStr(b)
    ensures TruthyStr(a) ==> r == a
    ensures !TruthyStr(a) ==> r == b
  {
    if TruthyStr(a) then a else b
  }

  predicate IsUpperAscii(c: char) {
    'A' <= c <= 'Z'
  }

  /** Lower-cases one character; only the ASCII letters A-Z are mapped. */
  function LowerChar(c: char): char {
    if IsUpperAscii(c) then (c as int + ('a' as int - 'A' as int)) as char else c
  }

  /** `String.prototype.toLowerCase`, restricted to ASCII letters. */
  function ToLower(s: string): (r: string)
    ensures |r| == |s|
    ensures forall i :: 0 <= i < |r| ==> !IsUpperAscii(r[i])
    ensures forall i :: 0 <= i < |s| && !IsUpperAscii(s[i]) ==> r[i] == s[i]
    ensures forall i :: 0 <= i < |s| && IsUpperAscii(s[i]) ==> r[i] as int == s[i] as int + 32
  {
    seq(|s|, i requires 0 <= i < |s| => LowerChar(s[i]))
  }

  /** Two strings that are equal once letter case is ignored. */
  predicate EqualsIgnoringCase(a: string, b: string) {
    |a| == |b| && forall i :: 0 <= i < |a| ==> LowerChar(a[i]) == LowerChar(b[i])
  }

  /** Comparing the lower-cased string with an all-lower-case literal is the
      same as comparing the two strings without regard to case. */
  lemma ToLowerMatchesLiteral(s: string, lit: string)
    requires forall i :: 0 <= i < |lit| ==> !IsUpperAscii(lit[i])
    ensures ToLower(s) == lit <==> EqualsIgnoringCase(s, lit)
  {
  }
}

=== FILE: network_activity.dfy ===
/** The network-activity adapter mixin: `ajax()` counts in-flight requests
    around the wrapped implementation, and an observer of the counter starts
    and stops the native activity indicator. */
module NetworkActivity {
  import Promises

  /** What the counter observer does after a change. */
  datatype ObserverAction = ActivityStart | ActivityStop | ScheduleMissingPlugin

  /** The observer on `_pendingAjaxCalls`. */
  function ToggleNetworkActivity(pending: int, pluginPresent: bool): (a: ObserverAction)
    ensures a == ScheduleMissingPlugin <==> !pluginPresent
    ensures a == ActivityStart <==> pluginPresent && pending > 0
    ensures a == ActivityStop <==> pluginPresent && pending <= 0
  {
    if !pluginPresent then ScheduleMissingPlugin
    else if pending > 0 then ActivityStart
    else ActivityStop
  }

  /** The indicator's state after an observer action. */
  function Indicator(active: bool, a: ObserverAction): bool {
    match a
    case ActivityStart => true
    case ActivityStop => false
    case ScheduleMissingPlugin => active
  }

  /** Observable effects, in the order they happen. */
  datatype Effect<+V, +R> =
    | Observed(action: ObserverAction)
    | Delegated(id: nat)                                   // the wrapped `ajax` is called
    | WrapperSettled(id: nat, outcome: Promises.Callback<V, R>)

  /** The adapter: the `_pendingAjaxCalls` counter, the requests still in
      flight (each identified by the order of its `ajax()` call), the requests
      whose returned promise has settled but whose `finally` handler has not
      run yet, whether the `NetworkActivity` plugin is installed, the
      indicator's state and the promise `ajax()` returned for every request. */
  datatype Adapter<V, R> = Adapter(
    pending: int,
    nextId: nat,
    inFlight: set<nat>,
    finishing: set<nat>,
    pluginPresent: bool,
    active: bool,
    wrappers: map<nat, Promises.Promise<V, R>>)

  /** The adapter's invariant: the counter is the number of requests not yet
      decremented (in flight, or settled and waiting for their `finally`
      handler), and the indicator is on exactly while the counter is positive
      (it is never switched on without the plugin). */
  ghost predicate Valid<V, R>(a: Adapter<V, R>) {
    Accounts(a, 0)
  }

  /** The invariant with the counter exceeding the requests not yet
      decremented by `leak`. */
  ghost predicate Accounts<V, R>(a: Adapter<V, R>, leak: nat) {
    && a.pending == |a.inFlight| + |a.finishing| + leak
    && (a.pluginPresent ==> (a.active <==> a.pending > 0))
    && (!a.pluginPresent ==> !a.active)
    && WellFormed(a)
  }

  /** Every request made so far has a promise, a request is in flight exactly
      while its promise is pending, and only a settled promise waits for its
      `finally` handler. */
  ghost predicate WellFormed<V, R>(a: Adapter<V, R>) {
    && (forall id: nat :: id in a.wrappers <==> id < a.nextId)
    && (forall id: nat :: id in a.inFlight <==> id in a.wrappers && a.wrappers[id].Pending?)
    && (forall id: nat :: id in a.finishing ==> id in a.wrappers && !a.wrappers[id].Pending?)
  }

  /** A fresh adapter: `_pendingAjaxCalls: 0`, indicator off. */
  function Init<V, R>(pluginPresent: bool): (a: Adapter<V, R>)
    ensures Valid(a)
    ensures a.pending == 0 && !a.active && a.inFlight == {} && a.finishing == {}
  {
    Adapter(0, 0, {}, {}, pluginPresent, false, map[])
  }

  datatype StepOut<V, R> = StepOut(adapter: Adapter<V, R>, effects: seq<Effect<V, R>>)

  /** `ajax()`: increment the counter (the observer runs at once), then call
      the wrapped implementation; the returned promise is pending. */
  function Ajax<V, R>(a: Adapter<V, R>): (r: StepOut<V, R>)
    ensures r.adapter.pending == a.pending + 1
    ensures a.nextId !in a.inFlight && Valid(a) ==> |r.adapter.inFlight| == |a.inFlight| + 1
    ensures r.adapter.inFlight == a.inFlight + {a.nextId} && r.adapter.finishing == a.finishing
    ensures r.adapter.wrappers == a.wrappers[a.nextId := Promises.Pending]
    ensures |r.effects| == 2 && r.effects[1] == Delegated(a.nextId)
    ensures r.effects[0] == Observed(ToggleNetworkActivity(r.adapter.pending, a.pluginPresent))
    ensures Valid(a) ==> Valid(r.adapter)
    ensures Valid(a) && a.pluginPresent ==> r.adapter.active
    ensures r.adapter.pluginPresent == a.pluginPresent && r.adapter.nextId == a.nextId + 1
    ensures r.adapter.active == Indicator(a.active, r.effects[0].action)
  {
    var id := a.nextId;
    var pending := a.pending + 1;
    var action := ToggleNetworkActivity(pending, a.pluginPresent);
    var b := a.(pending := pending,
                nextId := id + 1,
                inFlight := a.inFlight + {id},
                active := Indicator(a.active, action),
                wrappers := a.wrappers[id := Promises.Pending]);
    assert Valid(a) ==> id !in a.inFlight;
    StepOut(b, [Observed(action), Delegated(id)])
  }

  /** The wrapped call of request `id` settles: the returned promise settles
      the same way, and its own handlers run before the `finally` handler
      that decrements the counter. A request that is not in flight has
      already settled and nothing happens. */
  function Complete<V, R>(a: Adapter<V, R>, id: nat, outcome: Promises.Callback<V, R>): (r: StepOut<V, R>)
    ensures id !in a.inFlight ==> r == StepOut(a, [])
    ensures id in a.inFlight ==> r.adapter.pending == a.pending && r.adapter.active == a.active
    ensures id in a.inFlight ==>
      r.adapter.inFlight == a.inFlight - {id} && r.adapter.finishing == a.finishing + {id}
    ensures id in a.inFlight && outcome.Succeeded? ==>
      r.adapter.wrappers == a.wrappers[id := Promises.Fulfilled(outcome.value)]
    ensures id in a.inFlight && outcome.Failed? ==>
      r.adapter.wrappers == a.wrappers[id := Promises.Rejected(outcome.reason)]
    ensures id in a.inFlight ==> r.effects == [WrapperSettled(id, outcome)]
    ensures id in a.inFlight ==>
      r.adapter.pluginPresent == a.pluginPresent && r.adapter.nextId == a.nextId
    ensures Valid(a) ==> Valid(r.adapter)
  {
    if id !in a.inFlight then StepOut(a, [])
    else
      var settled := Promises.Settle(Promises.Pending, outcome);
      var b := a.(inFlight := a.inFlight - {id},
                  finishing := a.finishing + {id},
                  wrappers := a.wrappers[id := settled]);
      StepOut(b, [WrapperSettled(id, outcome)])
  }

  /** The `finally` handler of request `id` runs: the counter is decremented
      and the observer runs. A request whose handler has already run, or
      whose promise has not settled, is left alone. */
  function Finally<V, R>(a: Adapter<V, R>, id: nat): (r: StepOut<V, R>)
    ensures id !in a.finishing ==> r == StepOut(a, [])
    ensures id in a.finishing ==> r.adapter.pending == a.pending - 1
    ensures id in a.finishing ==>
      r.adapter.finishing == a.finishing - {id} && r.adapter.inFlight == a.inFlight &&
      r.adapter.wrappers == a.wrappers
    ensures id in a.finishing ==>
      r.effects == [Observed(ToggleNetworkActivity(r.adapter.pending, a.pluginPresent))]
    ensures id in a.finishing ==>
      r.adapter.pluginPresent == a.pluginPresent && r.adapter.nextId == a.nextId
    ensures id in a.finishing ==> r.adapter.active == Indicator(a.active, r.effects[0].action)
    ensures Valid(a) ==> Valid(r.adapter)
  {
    if id !in a.finishing then StepOut(a, [])
    else
      var pending := a.pending - 1;
      var action := ToggleNetworkActivity(pending, a.pluginPresent);
      var b := a.(pending := pending,
                  finishing := a.finishing - {id},
                  active := Indicator(a.active, action));
      StepOut(b, [Observed(action)])
  }

  /** `ajax()` as written when the wrapped implementation throws instead of
      returning a promise: the promise executor rejects the returned promise,
      but the `finally` handler that decrements is never attached, so the
      counter keeps the request although nothing is in flight. */
  function AjaxThrowingAsWritten<V, R>(a: Adapter<V, R>, reason: R): (r: StepOut<V, R>)
    ensures r.adapter.pending == a.pending + 1
    ensures r.adapter.inFlight == a.inFlight && r.adapter.finishing == a.finishing
    ensures r.adapter.wrappers == a.wrappers[a.nextId := Promises.Rejected(reason)]
    ensures r.adapter.pluginPresent == a.pluginPresent && r.adapter.nextId == a.nextId + 1
    ensures r.effects == [Observed(ToggleNetworkActivity(r.adapter.pending, a.pluginPresent)),
                          Delegated(a.nextId), WrapperSettled(a.nextId, Promises.Failed(reason))]
    ensures r.adapter.active == Indicator(a.active, r.effects[0].action)
  {
    var id := a.nextId;
    var pending := a.pending + 1;
    var action := ToggleNetworkActivity(pending, a.pluginPresent);
    var b := a.(pending := pending,
                nextId := id + 1,
                active := Indicator(a.active, action),
                wrappers := a.wrappers[id := Promises.Rejected(reason)]);
    StepOut(b, [Observed(action), Delegated(id), WrapperSettled(id, Promises.Failed(reason))])
  }

  /** The input of the finding about the throwing path, concretely: from a
      fresh adapter with the plugin, one wrapped `ajax` that throws leaves the
      counter at 1 and the indicator on with no request in flight. */
  lemma ThrowingDelegateLeavesIndicatorOn<V, R>(reason: R)
    ensures var b := AjaxThrowingAsWritten(Init<V, R>(true), reason).adapter;
      && b.inFlight == {} && b.pending == 1 && b.active && !Valid(b)
  {
  }

  /** `ajax()` when the wrapped implementation throws, with the decrement the
      `finally` handler is meant to guarantee: the returned promise rejects
      with the thrown reason and the counter returns to its previous value. */
  function AjaxThrowing<V, R>(a: Adapter<V, R>, reason: R): (r: StepOut<V, R>)
    ensures r.adapter.pending == a.pending
    ensures Valid(a) ==> r.adapter.inFlight == a.inFlight && r.adapter.finishing == a.finishing
    ensures r.adapter.wrappers == a.wrappers[a.nextId := Promises.Rejected(reason)]
    ensures Valid(a) ==> Valid(r.adapter)
    ensures |r.effects| == 4 && r.effects[1] == Delegated(a.nextId)
    ensures r.effects[0] == Observed(ToggleNetworkActivity(a.pending + 1, a.pluginPresent))
    ensures r.effects[3] == Observed(ToggleNetworkActivity(a.pending, a.pluginPresent))
  {
    var started := Ajax(a);
    var settled := Complete(started.adapter, a.nextId, Promises.Failed(reason));
    var finished := Finally(settled.adapter, a.nextId);
    StepOut(finished.adapter, started.effects + settled.effects + finished.effects)
  }

  /** What reaches the adapter: a new `ajax()` call (whose wrapped
      implementation returns a promise, or throws), the settlement of the
      wrapped call of an earlier request, or the `finally` handler of an
      earlier request. Between a settlement and its `finally` handler, the
      handlers attached to the returned promise run, and may call `ajax()`. */
  datatype Request<V, R> =
    | Call
    | CallThrowing(reason: R)
    | Settle(id: nat, outcome: Promises.Callback<V, R>)
    | Decrement(id: nat)

  /** Number of calls in a series whose wrapped `ajax` throws. */
  function Throws<V, R>(qs: seq<Request<V, R>>): nat {
    if |qs| == 0 then 0
    else (if qs[0].CallThrowing? then 1 else 0) + Throws(qs[1..])
  }

  /** One request, as the mixin is written. */
  function Apply<V, R>(a: Adapter<V, R>, q: Request<V, R>): StepOut<V, R> {
    match q
    case Call => Ajax(a)
    case CallThrowing(reason) => AjaxThrowingAsWritten(a, reason)
    case Settle(id, outcome) => Complete(a, id, outcome)
    case Decrement(id) => Finally(a, id)
  }

  /** The adapter after a series of requests, with every effect in order. */
  function RunAdapter<V, R>(a: Adapter<V, R>, qs: seq<Request<V, R>>): (r: StepOut<V, R>)
    decreases |qs|
  {
    if |qs| == 0 then StepOut(a, [])
    else
      var first := Apply(a, qs[0]);
      var rest := RunAdapter(first.adapter, qs[1..]);
      StepOut(rest.adapter, first.effects + rest.effects)
  }

  /** Each request keeps the accounts, except that a throwing call adds one to
      the excess of the counter over the requests in flight. */
  lemma ApplyAccounts<V, R>(a: Adapter<V, R>, leak: nat, q: Request<V, R>)
    requires Accounts(a, leak)
    ensures Accounts(Apply(a, q).adapter, leak + (if q.CallThrowing? then 1 else 0))
    ensures Apply(a, q).adapter.pluginPresent == a.pluginPresent
  {
    match q {
      case Call => AjaxAccounts(a, leak);
      case CallThrowing(reason) => ThrowAccounts(a, leak, reason);
      case Settle(id, outcome) => CompleteAccounts(a, leak, id, outcome);
      case Decrement(id) => FinallyAccounts(a, leak, id);
    }
  }

  lemma AjaxAccounts<V, R>(a: Adapter<V, R>, leak: nat)
    requires Accounts(a, leak)
    ensures Accounts(Ajax(a).adapter, leak)
  {
    var b := Ajax(a).adapter;
    assert a.nextId !in a.inFlight;
    assert |b.inFlight| == |a.inFlight| + 1;
    assert WellFormed(b);
  }

  lemma ThrowAccounts<V, R>(a: Adapter<V, R>, leak: nat, reason: R)
    requires Accounts(a, leak)
    ensures Accounts(AjaxThrowingAsWritten(a, reason).adapter, leak + 1)
  {
    var b := AjaxThrowingAsWritten(a, reason).adapter;
    assert a.nextId !in a.inFlight;
    assert WellFormed(b);
  }

  lemma CompleteAccounts<V, R>(a: Adapter<V, R>, leak: nat, id: nat, outcome: Promises.Callback<V, R>)
    requires Accounts(a, leak)
    ensures Accounts(Complete(a, id, outcome).adapter, leak)
  {
    if id in a.inFlight {
      var b := Complete(a, id, outcome).adapter;
      assert |b.inFlight| == |a.inFlight| - 1;
      assert id !in a.finishing;
      assert |b.finishing| == |a.finishing| + 1;
      assert WellFormed(b);
    }
  }

  lemma FinallyAccounts<V, R>(a: Adapter<V, R>, leak: nat, id: nat)
    requires Accounts(a, leak)
    ensures Accounts(Finally(a, id).adapter, leak)
  {
    if id in a.finishing {
      var b := Finally(a, id).adapter;
      assert |b.finishing| == |a.finishing| - 1;
      assert WellFormed(b);
    }
  }

  /** Over a series of requests, calls and settlements keep the accounts and
      every throwing call adds one to the excess of the counter over the
      requests in flight. */
  lemma {:induction false} LeakGrowsWithThrows<V, R>(a: Adapter<V, R>, leak: nat, qs: seq<Request<V, R>>)
    requires Accounts(a, leak)
    ensures Accounts(RunAdapter(a, qs).adapter, leak + Throws(qs))
    ensures RunAdapter(a, qs).adapter.pluginPresent == a.pluginPresent
    decreases |qs|
  {
    if |qs| > 0 {
      ApplyAccounts(a, leak, qs[0]);
      var here := if qs[0].CallThrowing? then 1 else 0;
      LeakGrowsWithThrows(Apply(a, qs[0]).adapter, leak + here, qs[1..]);
    }
  }

  /** So after one throwing delegate, the indicator stays on whatever requests
      follow and however they settle, and each further throw adds to the
      excess. */
  lemma IndicatorStuckAfterThrow<V, R>(reason: R, qs: seq<Request<V, R>>)
    ensures var b := RunAdapter(AjaxThrowingAsWritten(Init<V, R>(true), reason).adapter, qs).adapter;
      b.pending == |b.inFlight| + |b.finishing| + 1 + Throws(qs) && b.active
  {
    var a := AjaxThrowingAsWritten(Init<V, R>(true), reason).adapter;
    assert Accounts(a, 1);
    LeakGrowsWithThrows(a, 1, qs);
  }

  /** From a valid adapter, the counter equals the number of requests not yet
      decremented plus the number of throwing calls (so it is never
      negative), and the indicator is on exactly while the counter is
      positive. A series without throwing calls keeps the invariant. */
  lemma RunKeepsValid<V, R>(a: Adapter<V, R>, qs: seq<Request<V, R>>)
    requires Valid(a)
    ensures RunAdapter(a, qs).adapter.pending ==
      |RunAdapter(a, qs).adapter.inFlight| + |RunAdapter(a, qs).adapter.finishing| + Throws(qs)
    ensures RunAdapter(a, qs).adapter.pending >= 0
    ensures a.pluginPresent ==> (RunAdapter(a, qs).adapter.active <==> RunAdapter(a, qs).adapter.pending > 0)
    ensures Throws(qs) == 0 ==> Valid(RunAdapter(a, qs).adapter)
  {
    LeakGrowsWithThrows(a, 0, qs);
  }

  /** Once no request is in flight, the counter holds the requests still
      waiting for their `finally` handler and the throwing calls: once those
      handlers have run, it is back at 0, with the indicator off, iff none of
      the calls threw. */
  lemma AllSettledIsIdle<V, R>(pluginPresent: bool, qs: seq<Request<V, R>>)
    requires RunAdapter(Init<V, R>(pluginPresent), qs).adapter.inFlight == {}
    ensures RunAdapter(Init<V, R>(pluginPresent), qs).adapter.pending ==
      |RunAdapter(Init<V, R>(pluginPresent), qs).adapter.finishing| + Throws(qs)
    ensures pluginPresent ==> (RunAdapter(Init<V, R>(pluginPresent), qs).adapter.active <==>
      |RunAdapter(Init<V, R>(pluginPresent), qs).adapter.finishing| + Throws(qs) > 0)
    ensures !pluginPresent ==> !RunAdapter(Init<V, R>(pluginPresent), qs).adapter.active
  {
    LeakGrowsWithThrows(Init<V, R>(pluginPresent), 0, qs);
  }

  /** Without the `NetworkActivity` plugin the indicator is never started or
      stopped: the observer only schedules the missing-plugin hook. */
  lemma {:induction false} NoPluginNoIndicatorCalls<V, R>(a: Adapter<V, R>, qs: seq<Request<V, R>>)
    requires !a.pluginPresent
    ensures forall e :: e in RunAdapter(a, qs).effects && e.Observed? ==> e.action == ScheduleMissingPlugin
    ensures !RunAdapter(a, qs).adapter.pluginPresent
    decreases |qs|
  {
    if |qs| > 0 {
      NoPluginNoIndicatorCalls(Apply(a, qs[0]).adapter, qs[1..]);
    }
  }

  /** A handler of the returned promise that calls `ajax()` again runs before
      the first request's `finally` handler: the counter never drops to 0 in
      between, so with the plugin the indicator is never stopped, only
      started again, and it is still on afterwards. */
  lemma ChainedRequestKeepsIndicatorOn<V, R>(a: Adapter<V, R>, id: nat, outcome: Promises.Callback<V, R>)
    requires Valid(a) && a.pluginPresent && id in a.inFlight
    ensures var r := RunAdapter(a, [Settle(id, outcome), Call, Decrement(id)]);
      && Observed(ActivityStop) !in r.effects
      && r.effects == [WrapperSettled(id, outcome), Observed(ActivityStart), Delegated(a.nextId), Observed(ActivityStart)]
      && r.adapter.active && r.adapter.pending == a.pending
  {
    var s1 := Complete(a, id, outcome);
    var s2 := Ajax(s1.adapter);
    var s3 := Finally(s2.adapter, id);
    assert a.nextId !in a.inFlight;
    assert id in s2.adapter.finishing;
    assert s2.adapter.pending == a.pending + 1 && a.pending >= 1;
    var qs := [Settle(id, outcome), Call, Decrement(id)];
    assert RunAdapter(s2.adapter, qs[2..]) == StepOut(s3.adapter, s3.effects + []) by {
      assert qs[2..][1..] == [];
    }
    assert RunAdapter(s1.adapter, qs[1..]) == StepOut(s3.adapter, s2.effects + s3.effects) by {
      assert qs[1..][1..] == qs[2..];
    }
    assert RunAdapter(a, qs) == StepOut(s3.adapter, s1.effects + (s2.effects + s3.effects));
  }

  /** A settled request is never decremented again, and its promise keeps the
      value or reason it settled with. */
  lemma {:induction false} SettledRequestIsFinal<V, R>(a: Adapter<V, R>, qs: seq<Request<V, R>>, id: nat)
    requires WellFormed(a)
    requires id in a.wrappers && !a.wrappers[id].Pending?
    ensures id in RunAdapter(a, qs).adapter.wrappers
    ensures RunAdapter(a, qs).adapter.wrappers[id] == a.wrappers[id]
    decreases |qs|
  {
    if |qs| > 0 {
      ApplyKeepsSettled(a, qs[0], id);
      SettledRequestIsFinal(Apply(a, qs[0]).adapter, qs[1..], id);
    }
  }

  /** One request keeps a settled promise and the shape of the adapter. */
  lemma ApplyKeepsSettled<V, R>(a: Adapter<V, R>, q: Request<V, R>, id: nat)
    requires WellFormed(a)
    requires id in a.wrappers && !a.wrappers[id].Pending?
    ensures WellFormed(Apply(a, q).adapter)
    ensures id in Apply(a, q).adapter.wrappers && Apply(a, q).adapter.wrappers[id] == a.wrappers[id]
  {
    assert id !in a.inFlight;
    assert a.nextId !in a.inFlight;
    var b := Apply(a, q).adapter;
    match q {
      case Call =>
        assert WellFormed(b);
      case CallThrowing(_) =>
        assert WellFormed(b);
      case Settle(_, _) =>
        assert WellFormed(b);
      case Decrement(_) =>
        assert WellFormed(b);
    }
  }

  /** One request, with the decrement also on the throwing path. */
  function ApplyCorrected<V, R>(a: Adapter<V, R>, q: Request<V, R>): StepOut<V, R> {
    match q
    case CallThrowing(reason) => AjaxThrowing(a, reason)
    case _ => Apply(a, q)
  }

  /** The corrected adapter after a series of requests. */
  function RunCorrected<V, R>(a: Adapter<V, R>, qs: seq<Request<V, R>>): (r: StepOut<V, R>)
    decreases |qs|
  {
    if |qs| == 0 then StepOut(a, [])
    else
      var first := ApplyCorrected(a, qs[0]);
      var rest := RunCorrected(first.adapter, qs[1..]);
      StepOut(rest.adapter, first.effects + rest.effects)
  }

  /** With the decrement on the throwing path, every series of requests keeps
      the invariant: the counter equals the requests in flight and the
      indicator is on exactly while it is positive. */
  lemma {:induction false} RunCorrectedKeepsValid<V, R>(a: Adapter<V, R>, qs: seq<Request<V, R>>)
    requires Valid(a)
    ensures Valid(RunCorrected(a, qs).adapter)
    ensures RunCorrected(a, qs).adapter.pending >= 0
    decreases |qs|
  {
    if |qs| > 0 {
      RunCorrectedKeepsValid(ApplyCorrected(a, qs[0]).adapter, qs[1..]);
    }
  }

  /** With the correction, once no request is in flight the counter holds
      only the requests waiting for their `finally` handler: once those have
      run it is back at 0 and the indicator is off, throwing calls included. */
  lemma CorrectedAllSettledIsIdle<V, R>(pluginPresent: bool, qs: seq<Request<V, R>>)
    requires RunCorrected(Init<V, R>(pluginPresent), qs).adapter.inFlight == {}
    ensures RunCorrected(Init<V, R>(pluginPresent), qs).adapter.pending ==
      |RunCorrected(Init<V, R>(pluginPresent), qs).adapter.finishing|
    ensures RunCorrected(Init<V, R>(pluginPresent), qs).adapter.finishing == {} ==>
      !RunCorrected(Init<V, R>(pluginPresent), qs).adapter.active
  {
    RunCorrectedKeepsValid(Init<V, R>(pluginPresent), qs);
  }
}

=== FILE: notification_events.dfy ===
/** The closed event vocabulary of the notification service: `_registration`,
    `sound`, `alert` and `badge`, and the emission orders of its two native
    channels. */
module NotificationEvents {

  /** Which push back end produced a registration token. */
  datatype Network = Gcm | Apns

  /** The data carried by a `_registration` event and by a fulfilled
      `register()` promise: `{network, token}`. */
  datatype RegistrationData = RegistrationData(network: Network, token: string)

  datatype Event =
    | Registration(data: RegistrationData)
    | Sound(filename: string)
    | Alert(message: string)
    | Badge(count: int)

  datatype EventKind = RegistrationKind | SoundKind | AlertKind | BadgeKind

  function KindOf(e: Event): EventKind {
    match e
    case Registration(_) => RegistrationKind
    case Sound(_) => SoundKind
    case Alert(_) => AlertKind
    case Badge(_) => BadgeKind
  }

  /** GCM foreground messages emit sound, then alert, then badge. */
  const GcmMessageOrder: seq<EventKind> := [SoundKind, AlertKind, BadgeKind]

  /** APNS notifications emit alert, then sound, then badge. */
  const ApnsOrder: seq<EventKind> := [AlertKind, SoundKind, BadgeKind]

  /** Position of a kind in an emission order; kinds not listed rank last. */
  function Rank(order: seq<EventKind>, k: EventKind): (r: nat)
    ensures r <= |order|
    ensures r < |order| ==> order[r] == k
    ensures forall j :: 0 <= j < r ==> order[j] != k
  {
    if |order| == 0 then 0
    else if order[0] == k then 0
    else 1 + Rank(order[1..], k)
  }

  /** The events appear in the given order of kinds, at most one per kind. */
  ghost predicate FollowsOrder(es: seq<Event>, order: seq<EventKind>) {
    forall i, j :: 0 <= i < j < |es| ==> Rank(order, KindOf(es[i])) < Rank(order, KindOf(es[j]))
  }

  /** The two emissions hold exactly the same events. */
  ghost predicate SameEvents(a: seq<Event>, b: seq<Event>) {
    forall e :: e in a <==> e in b
  }

  /** Two emissions that follow the same order and contain the same events are
      the same sequence: membership plus order pin an emission down. */
  lemma {:induction false} OrderedEmissionIsUnique(a: seq<Event>, b: seq<Event>, order: seq<EventKind>)
    requires FollowsOrder(a, order) && FollowsOrder(b, order)
    requires SameEvents(a, b)
    ensures a == b
  {
    EmptyTogether(a, b);
    if |a| > 0 {
      HeadsAgree(a, b, order);
      TailsAgree(a, b, order);
      OrderedEmissionIsUnique(a[1..], b[1..], order);
      assert a == [a[0]] + a[1..];
      assert b == [b[0]] + b[1..];
    }
  }

  /** The first event of each emission is the one of least rank. */
  lemma HeadsAgree(a: seq<Event>, b: seq<Event>, order: seq<EventKind>)
    requires FollowsOrder(a, order) && FollowsOrder(b, order)
    requires SameEvents(a, b)
    requires |a| > 0
    ensures |b| > 0 && a[0] == b[0]
  {
    assert a[0] in a;
    assert a[0] in b;
    assert b[0] in b;
    assert b[0] in a;
    var j :| 0 <= j < |a| && a[j] == b[0];
    var k :| 0 <= k < |b| && b[k] == a[0];
    assert Rank(order, KindOf(a[0])) <= Rank(order, KindOf(a[j]));
    assert Rank(order, KindOf(b[0])) <= Rank(order, KindOf(b[k]));
    assert j == 0;
  }

  lemma EmptyTogether(a: seq<Event>, b: seq<Event>)
    requires SameEvents(a, b)
    ensures |a| == 0 <==> |b| == 0
  {
    if |a| > 0 {
      assert a[0] in b;
    }
    if |b| > 0 {
      assert b[0] in a;
    }
  }

  /** Once the heads agree, the tails are again two ordered emissions with the
      same events. */
  lemma TailsAgree(a: seq<Event>, b: seq<Event>, order: seq<EventKind>)
    requires FollowsOrder(a, order) && FollowsOrder(b, order)
    requires SameEvents(a, b)
    requires |a| > 0 && |b| > 0 && a[0] == b[0]
    ensures FollowsOrder(a[1..], order) && FollowsOrder(b[1..], order)
    ensures SameEvents(a[1..], b[1..])
  {
    forall e | e in a[1..]
      ensures e in b[1..]
    {
      TailMemberStaysInTail(a, b, order, e);
    }
    forall e | e in b[1..]
      ensures e in a[1..]
    {
      TailMemberStaysInTail(b, a, order, e);
    }
  }

  lemma TailMemberStaysInTail(a: seq<Event>, b: seq<Event>, order: seq<EventKind>, e: Event)
    requires FollowsOrder(a, order)
    requires SameEvents(a, b)
    requires |a| > 0 && |b| > 0 && a[0] == b[0]
    requires e in a[1..]
    ensures e in b[1..]
  {
    var i :| 1 <= i < |a| && a[i] == e;
    assert Rank(order, KindOf(a[0])) < Rank(order, KindOf(e));
    assert e in a;
    assert e in b;
    var m :| 0 <= m < |b| && b[m] == e;
    assert m != 0;
    assert b[1..][m - 1] == e;
  }
}

=== FILE: promises.dfy ===
/** A promise as seen by its consumer: pending until the first of its
    `resolve`/`reject` callbacks is called, and fixed from then on. */
module Promises {

  datatype Promise<+T, +E> = Pending | Fulfilled(value: T) | Rejected(reason: E)

  /** How a native callback-style call can end: its success callback with a
      value, or its error callback with a reason. */
  datatype Callback<+T, +E> = Succeeded(value: T) | Failed(reason: E)

  /** Calls the promise's `resolve` (for a success) or `reject` (for a
      failure); only the first such call has an effect. */
  function Settle<T, E>(p: Promise<T, E>, c: Callback<T, E>): Promise<T, E> {
    if !p.Pending? then p
    else match c
      case Succeeded(v) => Fulfilled(v)
      case Failed(e) => Rejected(e)
  }

  /** The promise after a series of callback invocations. */
  function SettleAll<T, E>(p: Promise<T, E>, cs: seq<Callback<T, E>>): (q: Promise<T, E>)
    ensures !p.Pending? ==> q == p
    ensures p.Pending? && |cs| == 0 ==> q.Pending?
    ensures p.Pending? && |cs| > 0 && cs[0].Succeeded? ==> q == Fulfilled(cs[0].value)
    ensures p.Pending? && |cs| > 0 && cs[0].Failed? ==> q == Rejected(cs[0].reason)
    decreases |cs|
  {
    if |cs| == 0 then p else SettleAll(Settle(p, cs[0]), cs[1..])
  }
}

=== FILE: push_channels.dfy ===
/** The two native callback channels of the notification service,
    `onNotificationGCM` and `onNotificationAPNS`, as pure functions from a
    native payload to the ordered events the service triggers. */
module PushChannels {
  import opened Wrappers
  import opened JsValues
  import opened NotificationEvents

  /** Fixed path prefix put in front of GCM sound file names. */
  const AndroidAssetPrefix: string := "/android_asset/www/"

  /** The custom data a GCM message carries (`e.payload`). */
  datatype GcmPayload = GcmPayload(message: Option<string>, msgcnt: Option<int>, sound: Option<string>)

  /** The object the GCM plugin hands to `onNotificationGCM`. */
  datatype GcmNotification = GcmNotification(
    event: Option<string>,
    regid: Option<string>,
    foreground: Option<bool>,
    coldstart: Option<bool>,
    soundname: Option<string>,
    payload: Option<GcmPayload>)

  /** The object the APNS plugin hands to `onNotificationAPNS`. */
  datatype ApnsNotification = ApnsNotification(alert: Option<string>, sound: Option<string>, badge: Option<int>)

  /** The `TypeError` raised when the handler reads `property` of a field that
      is `undefined`. */
  datatype Fault = ReadOfUndefined(property: string)

  /** What one call of `onNotificationGCM` does: the events triggered, in
      order, and the exception that ended the call, if any. Events triggered
      before an exception have already reached their listeners. */
  datatype Handled = Handled(emitted: seq<Event>, fault: Option<Fault>)

  /** The singleton `[e]` when `c` holds, otherwise nothing. */
  function When(c: bool, e: Event): (r: seq<Event>)
    ensures c ==> r == [e]
    ensures !c ==> r == []
  {
    if c then [e] else []
  }

  /** Up to three events, each guarded by its own condition, emitted in an
      order that ranks them strictly increasing. */
  function Emit3(order: seq<EventKind>, c1: bool, e1: Event, c2: bool, e2: Event, c3: bool, e3: Event): (r: seq<Event>)
    requires Rank(order, KindOf(e1)) < Rank(order, KindOf(e2)) < Rank(order, KindOf(e3))
    ensures FollowsOrder(r, order)
    ensures forall ev :: ev in r <==> (c1 && ev == e1) || (c2 && ev == e2) || (c3 && ev == e3)
  {
    When(c1, e1) + When(c2, e2) + When(c3, e3)
  }

  /** The sound file of a foreground GCM message, `e.soundname || e.payload.sound`,
      or the fault of reading `sound` from a missing payload. */
  function GcmSoundFile(n: GcmNotification): (r: Option<Option<string>>)
    ensures r.None? <==> !TruthyStr(n.soundname) && n.payload.None?
    ensures r.Some? && TruthyStr(r.value) ==> TruthyStr(n.soundname) || TruthyStr(n.payload.value.sound)
    ensures TruthyStr(n.soundname) ==> r == Some(n.soundname)
    ensures !TruthyStr(n.soundname) && n.payload.Some? ==> r == Some(n.payload.value.sound)
  {
    if TruthyStr(n.soundname) then Some(n.soundname)
    else if n.payload.None? then None
    else Some(Or(n.soundname, n.payload.value.sound))
  }

  /** The `foreground` branch of a GCM `message` event. */
  function GcmForeground(n: GcmNotification): (h: Handled)
    ensures FollowsOrder(h.emitted, GcmMessageOrder)
    ensures n.payload.Some? ==> h.fault.None?
    ensures n.payload.None? ==> h.fault.Some?
    ensures forall ev :: ev in h.emitted ==> !ev.Registration?
    // sound: prefixed `soundname`, falling back to `payload.sound`
    ensures forall ev :: ev in h.emitted && ev.Sound? ==>
      exists f :: f != "" && ev.filename == AndroidAssetPrefix + f &&
        (n.soundname == Some(f) || (!TruthyStr(n.soundname) && n.payload.Some? && n.payload.value.sound == Some(f)))
    ensures TruthyStr(n.soundname) ==> Sound(AndroidAssetPrefix + n.soundname.value) in h.emitted
    ensures !TruthyStr(n.soundname) && n.payload.Some? && TruthyStr(n.payload.value.sound) ==>
      Sound(AndroidAssetPrefix + n.payload.value.sound.value) in h.emitted
    // alert and badge: present iff the payload field is truthy
    ensures forall ev :: ev in h.emitted && ev.Alert? ==> n.payload.Some? && n.payload.value.message == Some(ev.message) && ev.message != ""
    ensures n.payload.Some? && TruthyStr(n.payload.value.message) ==> Alert(n.payload.value.message.value) in h.emitted
    ensures forall ev :: ev in h.emitted && ev.Badge? ==> n.payload.Some? && n.payload.value.msgcnt == Some(ev.count) && ev.count != 0
    ensures n.payload.Some? && TruthyNum(n.payload.value.msgcnt) ==> Badge(n.payload.value.msgcnt.value) in h.emitted
  {
    var file := GcmSoundFile(n);
    if file.None? then
      Handled([], Some(ReadOfUndefined("sound")))
    else
      var sound := When(TruthyStr(file.value), Sound(AndroidAssetPrefix + file.value.GetOr("")));
      match n.payload
      case None => Handled(sound, Some(ReadOfUndefined("message")))
      case Some(p) =>
        Handled(Emit3(GcmMessageOrder,
                      TruthyStr(file.value), Sound(AndroidAssetPrefix + file.value.GetOr("")),
                      TruthyStr(p.message), Alert(p.message.GetOr("")),
                      TruthyNum(p.msgcnt), Badge(p.msgcnt.GetOr(0))), None)
  }

  /** `onNotificationGCM`: dispatch on `e.event`. */
  function OnGcm(n: GcmNotification): (h: Handled)
    // `registered`: exactly one `_registration` for a non-empty regid, none for
    // an empty one; a missing regid throws on `.length`
    ensures n.event == Some("registered") ==>
      (h.fault.Some? <==> n.regid.None?) && |h.emitted| <= 1
    ensures n.event == Some("registered") && TruthyStr(n.regid) ==>
      h.emitted == [Registration(RegistrationData(Gcm, n.regid.value))]
    ensures n.event == Some("registered") && !TruthyStr(n.regid) ==> h.emitted == []
    ensures forall ev :: ev in h.emitted && ev.Registration? ==>
      n.event == Some("registered") && TruthyStr(n.regid) && ev.data == RegistrationData(Gcm, n.regid.value)
    // `message`: only the foreground branch emits anything
    ensures n.event == Some("message") && !TruthyBool(n.foreground) ==> h == Handled([], None)
    ensures n.event == Some("message") && TruthyBool(n.foreground) ==> h == GcmForeground(n)
    // any other event kind is only logged
    ensures n.event != Some("registered") && n.event != Some("message") ==> h == Handled([], None)
  {
    if n.event == Some("registered") then
      match n.regid
      case None => Handled([], Some(ReadOfUndefined("length")))
      case Some(id) =>
        Handled(When(|id| > 0, Registration(RegistrationData(Gcm, id))), None)
    else if n.event == Some("message") then
      if TruthyBool(n.foreground) then GcmForeground(n)
      else if TruthyBool(n.coldstart) then
        // launched from a cold start: not handled
        Handled([], None)
      else
        // resumed from the background: not handled
        Handled([], None)
    else
      Handled([], None)
  }

  /** `onNotificationAPNS`: alert, sound and badge, each when its field is
      truthy, with the sound name used verbatim. */
  function OnApns(n: ApnsNotification): (r: seq<Event>)
    ensures FollowsOrder(r, ApnsOrder)
    ensures forall ev :: ev in r ==> !ev.Registration?
    ensures TruthyStr(n.alert) <==> Alert(n.alert.GetOr("")) in r
    ensures forall ev :: ev in r && ev.Alert? ==> n.alert == Some(ev.message)
    ensures TruthyStr(n.sound) <==> Sound(n.sound.GetOr("")) in r
    ensures forall ev :: ev in r && ev.Sound? ==> n.sound == Some(ev.filename)
    ensures TruthyNum(n.badge) <==> Badge(n.badge.GetOr(0)) in r
    ensures forall ev :: ev in r && ev.Badge? ==> n.badge == Some(ev.count)
  {
    Emit3(ApnsOrder,
          TruthyStr(n.alert), Alert(n.alert.GetOr("")),
          TruthyStr(n.sound), Sound(n.sound.GetOr("")),
          TruthyNum(n.badge), Badge(n.badge.GetOr(0)))
  }
}

=== FILE: push_registration.dfy ===
/** `register()` and `unregister()` of the notification service.

    `register()` is modelled as a settle-once state machine: `Register` picks
    the platform path and the native `register` call, and `Step` applies one
    asynchronous input (a native callback, an event triggered on the service,
    or the expiry of the GCM timer). */
module PushRegistration {
  import opened Wrappers
  import opened JsValues
  import opened NotificationEvents
  import Promises
  import PushChannels

  const SenderIdAssertion: string := "Assertion Failed: Attempted to register device for notifications with GCM Sender ID"
  const InvalidPlatformMessage: string := "Invalid platform"
  const GcmTimeoutMessage: string := "Timed out while registering for GCM"
  const GcmCallbackName: string := "onNotificationGCM"
  const ApnsCallbackName: string := "onNotificationAPNS"

  /** Why a `register()` promise was rejected: an `Error` built by the service
      (its message), or the native plugin's error value passed through. */
  datatype Failure =
    | ErrorObject(message: string)
    | NativeReason(reason: string)
    | TypeError          // a property read from a missing native object

  /** The options object passed to the native `register`. */
  datatype RegisterOptions =
    | GcmOptions(senderId: string, ecb: string)
    | ApnsOptions(badge: bool, sound: bool, alert: bool, ecb: string)

  datatype Path = GcmPath | ApnsPath

  /** One `register()` invocation, from the moment it is called.
      `WaitingAck` waits for the native `register` callback; `WaitingToken`
      (GCM only) has a timer armed and waits for the `_registration` event. */
  datatype RegState =
    | WaitingAck(path: Path)
    | WaitingToken
    | Resolved(data: RegistrationData)
    | Rejected(failure: Failure)

  predicate Settled(s: RegState) {
    s.Resolved? || s.Rejected?
  }

  /** Inputs that reach a pending registration. */
  datatype Input =
    | NativeSuccess(token: string)      // success callback of the native `register`
    | NativeError(reason: string)       // error callback of the native `register`
    | Triggered(event: Event)           // an event triggered on the service
    | TimeoutFired                      // the GCM timer expires

  datatype Platform = Android | AmazonFireOS | IOS | OtherPlatform

  /** Platforms registered through GCM. */
  predicate IsGcmPlatform(platform: string) {
    EqualsIgnoringCase(platform, "android") || EqualsIgnoringCase(platform, "amazon-fireos")
  }

  /** The `switch` on `device.platform.toLowerCase()`. */
  function ClassifyPlatform(platform: string): (p: Platform)
    ensures p == Android <==> EqualsIgnoringCase(platform, "android")
    ensures p == AmazonFireOS <==> EqualsIgnoringCase(platform, "amazon-fireos")
    ensures p == IOS <==> EqualsIgnoringCase(platform, "ios")
  {
    ToLowerMatchesLiteral(platform, "android");
    ToLowerMatchesLiteral(platform, "amazon-fireos");
    ToLowerMatchesLiteral(platform, "ios");
    var lower := ToLower(platform);
    if lower == "android" then Android
    else if lower == "amazon-fireos" then AmazonFireOS
    else if lower == "ios" then IOS
    else OtherPlatform
  }

  /** The state right after `register()` is called, and the native
      `register` call it makes, if any. */
  datatype Started = Started(state: RegState, nativeCall: Option<RegisterOptions>)

  /** `register()`: the `_registration` listener is armed first, then the
      platform decides the path. */
  function Register(platform: string, gcmSenderId: Option<string>): (st: Started)
    ensures !st.state.WaitingToken?
    ensures st.nativeCall.None? <==> Settled(st.state)
    ensures IsGcmPlatform(platform) && !TruthyStr(gcmSenderId) ==>
      st == Started(Rejected(ErrorObject(SenderIdAssertion)), None)
    ensures IsGcmPlatform(platform) && TruthyStr(gcmSenderId) ==>
      st == Started(WaitingAck(GcmPath), Some(GcmOptions(gcmSenderId.value, GcmCallbackName)))
    ensures EqualsIgnoringCase(platform, "ios") ==>
      st == Started(WaitingAck(ApnsPath), Some(ApnsOptions(true, true, true, ApnsCallbackName)))
    ensures !IsGcmPlatform(platform) && !EqualsIgnoringCase(platform, "ios") ==>
      st == Started(Rejected(ErrorObject(InvalidPlatformMessage)), None)
  {
    match ClassifyPlatform(platform)
    case Android | AmazonFireOS =>
      if !TruthyStr(gcmSenderId) then Started(Rejected(ErrorObject(SenderIdAssertion)), None)
      else Started(WaitingAck(GcmPath), Some(GcmOptions(gcmSenderId.value, GcmCallbackName)))
    case IOS =>
      Started(WaitingAck(ApnsPath), Some(ApnsOptions(true, true, true, ApnsCallbackName)))
    case OtherPlatform =>
      Started(Rejected(ErrorObject(InvalidPlatformMessage)), None)
  }

  /** The events the success callback of the native `register` triggers on
      the service: the GCM callback only arms the timer, while the APNS
      callback triggers `_registration` with `{network: "apns", token}`. */
  function AckEvents(path: Path, token: string): seq<Event> {
    match path
    case GcmPath => []
    case ApnsPath => [Registration(RegistrationData(Apns, token))]
  }

  /** The one-shot `_registration` listener `register()` arms first. */
  function Listen(s: RegState, e: Event): RegState {
    if !Settled(s) && e.Registration? then Resolved(e.data) else s
  }

  /** One input applied to a registration. */
  function Step(s: RegState, i: Input): (t: RegState)
    // settle-once: a settled promise ignores every later input
    ensures Settled(s) ==> t == s
    // the `_registration` listener resolves any pending registration
    ensures !Settled(s) && i.Triggered? && i.event.Registration? ==> t == Resolved(i.event.data)
    ensures i.Triggered? && !i.event.Registration? ==> t == s
    // the native error callback rejects with the native value, verbatim
    ensures !Settled(s) && i.NativeError? ==> t == Rejected(NativeReason(i.reason))
    // the GCM ack only arms the timer; the APNS ack carries the token
    ensures s == WaitingAck(GcmPath) && i.NativeSuccess? ==> t == WaitingToken
    ensures s == WaitingToken && i.NativeSuccess? ==> t == WaitingToken
    ensures s == WaitingAck(ApnsPath) && i.NativeSuccess? ==> t == Resolved(RegistrationData(Apns, i.token))
    // only an armed timer can time out
    ensures i.TimeoutFired? ==> t == (if s.WaitingToken? then Rejected(ErrorObject(GcmTimeoutMessage)) else s)
  {
    match s
    case Resolved(_) => s
    case Rejected(_) => s
    case WaitingAck(path) =>
      (match i
       case NativeSuccess(token) =>
         if path == GcmPath then WaitingToken
         else Listen(s, AckEvents(ApnsPath, token)[0])
       case NativeError(reason) => Rejected(NativeReason(reason))
       case Triggered(e) => Listen(s, e)
       case TimeoutFired => s)
    case WaitingToken =>
      (match i
       case NativeSuccess(_) => s
       case NativeError(reason) => Rejected(NativeReason(reason))
       case Triggered(e) => Listen(s, e)
       case TimeoutFired => Rejected(ErrorObject(GcmTimeoutMessage)))
  }

  /** One input applied to a registration that took `path`, with the events
      the service itself triggers while handling it. Those reach every
      `_registration` subscriber, whether or not this registration is still
      pending. */
  datatype Handled = Handled(state: RegState, triggered: seq<Event>)

  function StepOn(path: Path, s: RegState, i: Input): (h: Handled)
    ensures h.state == Step(s, i)
    // an APNS ack triggers `_registration` in every state, a settled one included
    ensures path == ApnsPath && i.NativeSuccess? ==>
      h.triggered == [Registration(RegistrationData(Apns, i.token))]
    ensures !(path == ApnsPath && i.NativeSuccess?) ==> h.triggered == []
    // and on the APNS path the ack settles nothing itself: its effect is that
    // of the event it triggers, through the listener
    ensures path == ApnsPath && i.NativeSuccess? && (s == WaitingAck(ApnsPath) || Settled(s)) ==>
      h.state == Run(s, TriggerAll(h.triggered))
  {
    var triggered := if i.NativeSuccess? then AckEvents(path, i.token) else [];
    assert path == ApnsPath && i.NativeSuccess? ==>
      Run(s, TriggerAll(triggered)) == Run(Step(s, TriggerAll(triggered)[0]), []);
    Handled(Step(s, i), triggered)
  }

  /** A registration that took `path` after a series of inputs, with every
      event the service triggered on the way, in order. */
  function RunOn(path: Path, s: RegState, inputs: seq<Input>): (h: Handled)
    ensures h.state == Run(s, inputs)
    ensures path == GcmPath ==> h.triggered == []
    decreases |inputs|
  {
    if |inputs| == 0 then Handled(s, [])
    else
      var first := StepOn(path, s, inputs[0]);
      var rest := RunOn(path, first.state, inputs[1..]);
      Handled(rest.state, first.triggered + rest.triggered)
  }

  /** A registration after a series of inputs. */
  function Run(s: RegState, inputs: seq<Input>): RegState
    decreases |inputs|
  {
    if |inputs| == 0 then s else Run(Step(s, inputs[0]), inputs[1..])
  }

  /** Running two series of inputs one after the other. */
  lemma {:induction false} RunAppend(s: RegState, a: seq<Input>, b: seq<Input>)
    ensures Run(s, a + b) == Run(Run(s, a), b)
    decreases |a|
  {
    if |a| == 0 {
      assert a + b == b;
    } else {
      assert (a + b)[0] == a[0];
      assert (a + b)[1..] == a[1..] + b;
      RunAppend(Step(s, a[0]), a[1..], b);
    }
  }

  /** Once settled, a registration stays as it is whatever follows. */
  lemma {:induction false} SettledIsFinal(s: RegState, inputs: seq<Input>)
    requires Settled(s)
    ensures Run(s, inputs) == s
    decreases |inputs|
  {
    if |inputs| > 0 {
      SettledIsFinal(Step(s, inputs[0]), inputs[1..]);
    }
  }

  /** Whichever input settles the registration first decides it: nothing
      after it, another token, a late timeout or a native error, has an
      effect. In particular it never both resolves and rejects. */
  lemma FirstSettlementWins(s: RegState, inputs: seq<Input>, k: nat)
    requires k <= |inputs|
    requires Settled(Run(s, inputs[..k]))
    ensures Run(s, inputs) == Run(s, inputs[..k])
  {
    assert inputs == inputs[..k] + inputs[k..];
    RunAppend(s, inputs[..k], inputs[k..]);
    SettledIsFinal(Run(s, inputs[..k]), inputs[k..]);
  }

  /** The inputs a GCM notification produces: every event it triggers. */
  function TriggerAll(events: seq<Event>): (r: seq<Input>)
    ensures |r| == |events|
    ensures forall j :: 0 <= j < |r| ==> r[j] == Triggered(events[j])
  {
    seq(|events|, j requires 0 <= j < |events| => Triggered(events[j]))
  }

  /** A GCM `registered` notification with a non-empty regid resolves a
      pending registration with `{network: "gcm", token: regid}`, and nothing
      after it, a second token included, changes that. */
  lemma GcmRegisteredResolves(s: RegState, n: PushChannels.GcmNotification, rest: seq<Input>)
    requires s.WaitingAck? || s.WaitingToken?
    requires n.event == Some("registered") && TruthyStr(n.regid)
    ensures Run(s, TriggerAll(PushChannels.OnGcm(n).emitted) + rest) == Resolved(RegistrationData(Gcm, n.regid.value))
  {
    var inputs := TriggerAll(PushChannels.OnGcm(n).emitted);
    var done := Resolved(RegistrationData(Gcm, n.regid.value));
    assert inputs == [Triggered(Registration(RegistrationData(Gcm, n.regid.value)))];
    assert Run(s, inputs) == Run(Step(s, inputs[0]), inputs[1..]);
    RunAppend(s, inputs, rest);
    SettledIsFinal(done, rest);
  }

  /** No input series can make the APNS path time out. */
  lemma {:induction false} ApnsNeverTimesOut(s: RegState, inputs: seq<Input>)
    requires s == WaitingAck(ApnsPath) || Settled(s)
    requires s != Rejected(ErrorObject(GcmTimeoutMessage))
    ensures Run(s, inputs) != Rejected(ErrorObject(GcmTimeoutMessage))
    decreases |inputs|
  {
    if |inputs| > 0 {
      ApnsNeverTimesOut(Step(s, inputs[0]), inputs[1..]);
    }
  }

  /** No input series produces the sender-id assertion failure: only
      `Register` does. */
  lemma {:induction false} NoLateSenderIdFailure(s: RegState, inputs: seq<Input>)
    requires s != Rejected(ErrorObject(SenderIdAssertion))
    ensures Run(s, inputs) != Rejected(ErrorObject(SenderIdAssertion))
    decreases |inputs|
  {
    if |inputs| > 0 {
      NoLateSenderIdFailure(Step(s, inputs[0]), inputs[1..]);
    }
  }

  /** On Android and Amazon FireOS, `register()` fails with the sender-id
      assertion exactly when no sender id is configured, whatever the native
      plugin and the notifications do afterwards. */
  lemma SenderIdRequired(platform: string, gcmSenderId: Option<string>, inputs: seq<Input>)
    requires IsGcmPlatform(platform)
    ensures Run(Register(platform, gcmSenderId).state, inputs) == Rejected(ErrorObject(SenderIdAssertion))
      <==> !TruthyStr(gcmSenderId)
  {
    var st := Register(platform, gcmSenderId);
    if TruthyStr(gcmSenderId) {
      NoLateSenderIdFailure(st.state, inputs);
    } else {
      SettledIsFinal(st.state, inputs);
    }
  }

  /** The GCM handshake: after the ack, the token event resolves and the timer
      rejects, whichever comes first. */
  lemma GcmHandshake(platform: string, senderId: string, ack: string, data: RegistrationData, rest: seq<Input>)
    requires IsGcmPlatform(platform) && senderId != ""
    ensures Run(Register(platform, Some(senderId)).state, [NativeSuccess(ack), Triggered(Registration(data))] + rest)
      == Resolved(data)
    ensures Run(Register(platform, Some(senderId)).state, [NativeSuccess(ack), TimeoutFired] + rest)
      == Rejected(ErrorObject(GcmTimeoutMessage))
  {
    var s := Register(platform, Some(senderId)).state;
    RunAppend(s, [NativeSuccess(ack), Triggered(Registration(data))], rest);
    SettledIsFinal(Resolved(data), rest);
    RunAppend(s, [NativeSuccess(ack), TimeoutFired], rest);
    SettledIsFinal(Rejected(ErrorObject(GcmTimeoutMessage)), rest);
  }

  /** The APNS handshake: the native ack triggers `_registration` with
      `{network: "apns", token}`, which resolves the promise at once; later
      inputs change nothing, and later acks still trigger the event. */
  lemma ApnsHandshake(platform: string, gcmSenderId: Option<string>, token: string, rest: seq<Input>)
    requires EqualsIgnoringCase(platform, "ios")
    ensures Run(Register(platform, gcmSenderId).state, [NativeSuccess(token)] + rest)
      == Resolved(RegistrationData(Apns, token))
    ensures RunOn(ApnsPath, Register(platform, gcmSenderId).state, [NativeSuccess(token)] + rest).triggered
      == [Registration(RegistrationData(Apns, token))] + RunOn(ApnsPath, Resolved(RegistrationData(Apns, token)), rest).triggered
  {
    var s := Register(platform, gcmSenderId).state;
    RunAppend(s, [NativeSuccess(token)], rest);
    SettledIsFinal(Resolved(RegistrationData(Apns, token)), rest);
    assert ([NativeSuccess(token)] + rest)[1..] == rest;
  }

  /** On the APNS path the service triggers exactly one `_registration`
      event per native ack, carrying its token, whatever the state of the
      registration; on the GCM path it triggers none. */
  lemma {:induction false} ApnsAcksReachSubscribers(path: Path, s: RegState, inputs: seq<Input>)
    ensures forall e :: e in RunOn(path, s, inputs).triggered <==>
      path == ApnsPath && e.Registration? && e.data.network == Apns &&
      NativeSuccess(e.data.token) in inputs
    decreases |inputs|
  {
    if |inputs| > 0 {
      ApnsAcksReachSubscribers(path, StepOn(path, s, inputs[0]).state, inputs[1..]);
      assert inputs == [inputs[0]] + inputs[1..];
    }
  }

  /** What `register()` reads from the native bridge before it reaches the
      platform switch: whether `window.plugins` is defined, whether it holds
      `pushNotification`, and `window.device.platform` if there is one. */
  datatype Bridge = Bridge(plugins: bool, pushNotification: bool, platform: Option<string>)

  /** `register()` with the native objects it reads. Reading through a missing
      `window.plugins` or a missing device platform throws inside the promise
      executor, which rejects the promise with the `TypeError`; so does calling
      `register` on a missing `pushNotification`, once a native call is due. */
  function RegisterOnBridge(b: Bridge, gcmSenderId: Option<string>): (st: Started)
    ensures !b.plugins || b.platform.None? ==> st == Started(Rejected(TypeError), None)
    ensures b.plugins && b.platform.Some? && b.pushNotification ==> st == Register(b.platform.value, gcmSenderId)
    ensures b.plugins && b.platform.Some? && !b.pushNotification ==>
      st.nativeCall.None? &&
      (Register(b.platform.value, gcmSenderId).nativeCall.None? ==> st == Register(b.platform.value, gcmSenderId)) &&
      (Register(b.platform.value, gcmSenderId).nativeCall.Some? ==> st.state == Rejected(TypeError))
  {
    if !b.plugins || b.platform.None? then Started(Rejected(TypeError), None)
    else
      var st := Register(b.platform.value, gcmSenderId);
      if st.nativeCall.Some? && !b.pushNotification then Started(Rejected(TypeError), None)
      else st
  }

  /** `unregister()`: a promise around the native `unregister`, resolved with
      the value the native success callback passes and rejected with the
      native error verbatim. */
  function Unregister<T, E>(callbacks: seq<Promises.Callback<T, E>>): (p: Promises.Promise<T, E>)
    ensures p.Pending? <==> |callbacks| == 0
    ensures p.Fulfilled? <==> |callbacks| > 0 && callbacks[0].Succeeded?
    ensures p.Rejected? <==> |callbacks| > 0 && callbacks[0].Failed?
    ensures p.Fulfilled? ==> p.value == callbacks[0].value
    ensures p.Rejected? ==> p.reason == callbacks[0].reason
  {
    Promises.SettleAll(Promises.Pending, callbacks)
  }

  /** `unregister()` when `window.plugins.pushNotification` may be missing:
      reading through it throws in the promise executor, and the promise
      rejects with that error (`typeError`) without any native call. */
  function UnregisterOnBridge<T, E>(pushNotification: bool, typeError: E, callbacks: seq<Promises.Callback<T, E>>): (p: Promises.Promise<T, E>)
    ensures !pushNotification ==> p == Promises.Rejected(typeError)
    ensures pushNotification ==> p == Unregister(callbacks)
  {
    if !pushNotification then Promises.Rejected(typeError) else Unregister(callbacks)
  }
}

=== FILE: wrappers.dfy ===
/** Optional values: the model's stand-in for a JavaScript property that may be
    `undefined` or `null`. */
module Wrappers {

  datatype Option<+T> = None | Some(value: T) {

    /** Returns the wrapped value, or `default` when there is none. */
    function GetOr(default: T): T {
      match this
      case Some(v) => v
      case None => default
    }
  }
}
